=== FILE: README.md ===
# BLE peripheral: GATT server and advertising session, in Dafny

This project models the core of an Android app that acts as a Bluetooth Low
Energy peripheral (`MainActivity.kt`). The app exposes one GATT service with
three characteristics. One is read, one is written, and one is indicated; the
indicate characteristic carries a Client Characteristic Configuration (CCC)
descriptor.

The model has three parts:

- **The GATT attribute server** (`Gatt`, `GattTrace`). The five
  `gattServerCallback` handlers are pure functions from the server state and
  one request to the next state and at most one response. The state holds the
  subscription set, the written and read values, and whether a GATT server
  is open. A response is sent through `gattServer?.sendResponse`, so a closed
  server sends none.
- **Histories of GATT callbacks** (`GattTrace.Replay`). A reference
  definition gives the last decision about each device and the last value
  written. Lemmas prove that any history agrees with it.
- **The advertising session** (`Session`, `SessionTrace`). This covers the
  `isAdvertising` flag and the precondition chain: permissions first, then
  the radio. The result handlers are kept in maps keyed by request code, each
  with an AskOnce or InsistUntilSuccess policy. Start opens the GATT server
  and then advertises. Stop closes the GATT server and then stops
  advertising. Calls into the OS are emitted as `Action`s. What the OS
  reports is an `Env` input: the SDK level, the permissions held, and whether
  the radio is on.

Constants follow the Bluetooth Core Specification. The CCC values come from
Vol 3, Part G, section 3.3.3.3: `01 00` enables notification, `02 00` enables
indication, and `00 00` disables both. Request Not Supported is ATT error
0x06 (Vol 3, Part F, section 3.4.1.1). `GATT_FAILURE` is an Android host
status with no ATT code, so the model keeps it abstract.

## Invariants the code does not implement

Several plausible invariants of a GATT peripheral do not hold in this code.
The model does what the code does:

- Nothing links subscriptions to connections. A connect event does not
  record the device, and a CCC write by a device that never connected still
  subscribes it (`GattTrace.SubscribeWithoutConnection`).
- Stop does not clear the subscription set. A device subscribed before a stop
  is still reported subscribed after the next start
  (`SessionTrace.SubscriptionSurvivesRestart`).
- Stop closes the GATT server before it stops advertising, so advertising
  can outlive the attribute tree (`Session.BleStopAdvertising`).
- The `addService` result is only logged, and advertising starts either way.
- Result handlers are overwritten when registered again, so the last
  registration wins. If a start is repeated while a prompt is pending, two
  prompts go out but only the first answer is acted on
  (`SessionTrace.RestartWhilePromptPendingAnswersOnce`).
- A stop does not cancel a pending start. `bleStopAdvertising` leaves the
  result handlers registered, so a permission grant that arrives after the
  switch was turned off still opens the GATT server and starts advertising
  (`SessionTrace.StopDoesNotCancelPendingStart`).
- A CCC read ignores the parent characteristic. A subscribed device is told
  the notification value, not the indication value.
- A CCC write under a parent other than the indicate characteristic gets
  Request Not Supported, not a failure.
- Reading the read characteristic does not return the last value written to
  the write characteristic. The two values are independent
  (`GattTrace.WriteThenReadServesReadValue`).

## Model

| member | source | states |
|---|---|---|
| `Gatt.AttCode` | app/src/main/java/com/example/ble_peripheral/MainActivity.kt:291-295 | The three statuses are distinct. Success has code 0 and Request Not Supported has code 0x06. The generic failure has no ATT code. |
| `Gatt.OnConnectionStateChange` | app/src/main/java/com/example/ble_peripheral/MainActivity.kt:213-224 | A device stays subscribed exactly when it was subscribed before and either it is not the reporting device or the new state is STATE_CONNECTED. Nothing else changes. |
| `Gatt.OnCharacteristicRead` | app/src/main/java/com/example/ble_peripheral/MainActivity.kt:230-244 | An open server answers exactly once, at offset 0, whatever offset was requested. The read characteristic returns Success with the encoded read value. Any other UUID returns Failure with no payload. The state never changes. |
| `Gatt.OnCharacteristicWrite` | app/src/main/java/com/example/ble_peripheral/MainActivity.kt:246-268 | A response is sent exactly when one is needed and the server is open. On the write characteristic, the stored value becomes the decoded bytes ("" for null), whether or not a response is needed. The response is Success echoing the re-encoded stored value. Any other UUID changes nothing and gets Failure with no payload. |
| `Gatt.OnDescriptorRead` | app/src/main/java/com/example/ble_peripheral/MainActivity.kt:270-286 | An open server answers exactly once. On the CCC the answer is Success with `01 00` when the device is subscribed, else `00 00`. Any other UUID returns Failure with no payload. The subscription set never changes. |
| `Gatt.OnDescriptorWrite` | app/src/main/java/com/example/ble_peripheral/MainActivity.kt:288-313 | Only the writing device's membership can change. `02 00` on the indicate characteristic's CCC subscribes it and `00 00` unsubscribes it, both with Success. Any other value, or a CCC under another parent, changes nothing and gets Request Not Supported. A non-CCC descriptor changes nothing and gets Failure. A response with no payload is sent exactly when one is needed and the server is open. |
| `GattTrace.Step` | app/src/main/java/com/example/ble_peripheral/MainActivity.kt:212-314 | No callback opens or closes the server. A response is sent exactly when the request is a read, or a write that needs a response, and the server is open. Each response is addressed to the device and request id that asked. |
| `GattTrace.Replay` | app/src/main/java/com/example/ble_peripheral/MainActivity.kt:212-314 | Over any history the server stays open or closed as it was. There are never more responses than events, and a closed server sends none. |
| `GattTrace.ReplayAnswersEachDemandOnce` | app/src/main/java/com/example/ble_peripheral/MainActivity.kt:230-313 | While the server is open, the responses over any history match the requests that need one, in order, one response each. A closed server sends nothing. |
| `GattTrace.StepFollowsEffect` | app/src/main/java/com/example/ble_peripheral/MainActivity.kt:213-313 | After one callback, each device's membership is what that callback decided for the device. A callback that decided nothing leaves it as it was. |
| `GattTrace.SubscriptionFollowsLastDecision` | app/src/main/java/com/example/ble_peripheral/MainActivity.kt:210-299 | After any history, a device is subscribed exactly when the last subscribe, unsubscribe or disconnect concerning it was a subscribe. With no such event, it keeps its initial membership. Other devices' events never touch it. |
| `GattTrace.WrittenIsLastWrite` | app/src/main/java/com/example/ble_peripheral/MainActivity.kt:246-258 | After any history, the stored value is the one from the last write to the write characteristic, by any device and with or without a response. With no such write, it is the initial value. |
| `GattTrace.ReplayLastResponse` | app/src/main/java/com/example/ble_peripheral/MainActivity.kt:212-314 | Extending a history by one event appends exactly that event's response, if it has one, to the responses. |
| `GattTrace.CccReadReflectsHistory` | app/src/main/java/com/example/ble_peripheral/MainActivity.kt:270-299 | This is the subscribe/unsubscribe round trip. A CCC read after any history reports `01 00` when the last decision about the reader was a subscribe, and `00 00` after an unsubscribe or disconnect. |
| `GattTrace.CccWritesIdempotent` | app/src/main/java/com/example/ble_peripheral/MainActivity.kt:293-299 | Repeating a subscribe, or an unsubscribe, leaves the same state as doing it once. |
| `GattTrace.CccWriteAttCodes` | app/src/main/java/com/example/ble_peripheral/MainActivity.kt:290-304 | A CCC write on an open server that needs a response is answered with ATT code 0 for the two recognised values under the indicate characteristic, and with Request Not Supported (0x06) otherwise. |
| `GattTrace.WriteThenReadServesReadValue` | app/src/main/java/com/example/ble_peripheral/MainActivity.kt:230-258 | A write is echoed back. A following read serves the read value, not the written one. |
| `GattTrace.SubscribeWithoutConnection` | app/src/main/java/com/example/ble_peripheral/MainActivity.kt:213-299 | A device that never connected becomes subscribed by a CCC enable-indication write. |
| `GattTrace.DisconnectClearsSubscription` | app/src/main/java/com/example/ble_peripheral/MainActivity.kt:213-313 | A subscribes and then disconnects. B connects and reads the CCC. B gets `00 00` and the subscription set is empty. |
| `Session.AllGranted` | app/src/main/java/com/example/ble_peripheral/MainActivity.kt:404 | A permission result is a success exactly when every grant result is PERMISSION_GRANTED. An empty array counts as a success. |
| `Session.BleStartAdvertising` | app/src/main/java/com/example/ble_peripheral/MainActivity.kt:114-118 | The flag is set and the GATT server opened, then advertising starts. Subscriptions, stored values and pending handlers are kept. |
| `Session.BleStopAdvertising` | app/src/main/java/com/example/ble_peripheral/MainActivity.kt:120-124 | The flag is cleared and the server closed. Exactly two calls are made when a server was open (close, then stop advertising), and only the stop otherwise. Subscriptions, stored values and pending handlers survive. |
| `Session.Finish` | app/src/main/java/com/example/ble_peripheral/MainActivity.kt:101-112 | The flag ends equal to the outcome. Success opens the server, keeping its subscriptions and stored values, and starts advertising. Failure makes no call and leaves the server alone. |
| `Session.EnableBluetooth` | app/src/main/java/com/example/ble_peripheral/MainActivity.kt:362-384 | An enabled radio completes at once and starts the session. Otherwise the request-code-1 handler is registered with the given policy, overwriting any earlier one, and enabling is requested. |
| `Session.AfterPermissions` | app/src/main/java/com/example/ble_peripheral/MainActivity.kt:344-360 | A permission denial completes with false. It only clears the flag and makes no call. A grant moves on to the radio, asking once. With the radio on, the flag is set, the server opened and advertising started. With the radio off, an AskOnce handler is registered under code 1, overwriting any earlier one, and enabling is requested; nothing else changes. Permission handlers are never touched. |
| `Session.GrantPermissions` | app/src/main/java/com/example/ble_peripheral/MainActivity.kt:386-417 | For any retry policy: when a prompt is needed, the only change is a handler with that policy and the wanted permissions under code 2, overwriting any earlier one, and the only call is the permission request. Otherwise it completes with true at once and moves on to the radio: with the radio on, the only changes are the flag and an open server; with it off, the only change is an AskOnce handler under code 1, and the only call is the enable request. |
| `Session.PrepareAndStartAdvertising` | app/src/main/java/com/example/ble_peripheral/MainActivity.kt:344-360 | Permissions are checked first. If a prompt is needed, the only call is the permission request, with an AskOnce handler under code 2, and nothing else changes. Otherwise a radio that is off leads to one enable request with an AskOnce handler under code 1. With both in place, the flag is set, the server opened and advertising started. |
| `Session.OnRequestPermissionsResult` | app/src/main/java/com/example/ble_peripheral/MainActivity.kt:400-412 | An unknown request code is ignored. On success, or under AskOnce, the handler is removed and the chain resumes once. A denial clears the flag and makes no call. A grant moves on to the radio. A refused InsistUntilSuccess handler stays, nothing else changes, and the same permissions are requested again. |
| `Session.OnActivityResult` | app/src/main/java/com/example/ble_peripheral/MainActivity.kt:366-379 | An unknown request code is ignored. On RESULT_OK, or under AskOnce, the handler is removed and the start completes once. Success sets the flag, opens the server and advertises. A refusal only clears the flag. A refused InsistUntilSuccess handler stays and asks again. |
| `Session.OnStartFailure` | app/src/main/java/com/example/ble_peripheral/MainActivity.kt:193-204 | An advertising failure clears the flag and nothing else. The GATT server stays open. |
| `Session.OnGattEvent` | app/src/main/java/com/example/ble_peripheral/MainActivity.kt:212-314 | A GATT callback changes only the server state. Its only possible call is one `sendResponse`, made exactly when the server is open and the request needs one. That call carries the handler's response, addressed to the requesting device and request id. |
| `Session.Handle` | app/src/main/java/com/example/ble_peripheral/MainActivity.kt:67-79 | Routes the switch listener, `onDestroy`, the two result callbacks, the advertise callback and the GATT callbacks. Only GATT callbacks touch subscriptions and stored values, and they only send responses. Switching off or destroying clears the flag, closes an open server and then stops advertising, and changes nothing else. Switching on prompts for the wanted permissions when a prompt is needed; otherwise it starts (open, then advertise) when the radio is on and asks to enable it when it is off. A server is open afterwards exactly when it was or no prompt is needed and the radio is on. Every permission or enable request is made with a handler registered under its code, so its answer is never dropped. An enable result leaves permission handlers alone, and after any result a server is open exactly when one was or the result opened it. A permission or enable result with a registered handler either resolves it (the handler is removed, and the start completes or the chain goes on to the radio) or, refused under InsistUntilSuccess, leaves the state alone and asks again. A result whose request code has no handler, and advertise success, change nothing. An advertise failure only clears the flag. |
| `SessionTrace.HandlePreservesConsistent` | app/src/main/java/com/example/ble_peripheral/MainActivity.kt:101-124 | Every event keeps the invariant. The flag is set only while a server is open. Handlers sit only under their own codes, and each one asks once. |
| `SessionTrace.RunPreservesConsistent` | app/src/main/java/com/example/ble_peripheral/MainActivity.kt:101-124 | Every history from a consistent state, the initial one included, ends in a consistent state. |
| `SessionTrace.AskOnceNeverRetries` | app/src/main/java/com/example/ble_peripheral/MainActivity.kt:344-412 | In a reachable state, any permission or enable result resolves its request. The handler is gone afterwards. A permission result makes no permission request at all, and an enable result makes no enable request. |
| `SessionTrace.ResultCompletesOnce` | app/src/main/java/com/example/ble_peripheral/MainActivity.kt:370-412 | In a reachable state, a second identical result after one has been handled does nothing. |
| `SessionTrace.InsistAsksAgainOnEveryRefusal` | app/src/main/java/com/example/ble_peripheral/MainActivity.kt:403-412 | Take an InsistUntilSuccess handler and any number of refused results. The state is unchanged, and exactly one new permission request goes out per refusal. |
| `SessionTrace.InsistCompletesOnGrant` | app/src/main/java/com/example/ble_peripheral/MainActivity.kt:403-407 | An InsistUntilSuccess handler is removed on a full grant. With the radio on, the session starts. |
| `SessionTrace.RadioConsultedOnlyAfterPermissions` | app/src/main/java/com/example/ble_peripheral/MainActivity.kt:344-360 | While a permission prompt is needed, the radio's state makes no difference to a start. |
| `SessionTrace.NothingWantedNeverPrompts` | app/src/main/java/com/example/ble_peripheral/MainActivity.kt:387-397 | Below SDK level S nothing is wanted, so a start never requests permissions. |
| `SessionTrace.SubscriptionSurvivesRestart` | app/src/main/java/com/example/ble_peripheral/MainActivity.kt:154-161 | After stop then start, the server is open with the same subscription set. A subscribed device's CCC read answers `01 00`. |
| `SessionTrace.RestartWhilePromptPendingAnswersOnce` | app/src/main/java/com/example/ble_peripheral/MainActivity.kt:400-414 | The sequence is start, stop, start, then two grants. Two prompts go out, the first grant starts the session, and the second finds no handler. |
| `SessionTrace.RestartThenGrantTwice` | app/src/main/java/com/example/ble_peripheral/MainActivity.kt:396-412 | From any state with no server open: start (prompting), stop, start again, then two full grants with the radio on. Both starts prompt, but the second registration overwrites the first, so the first grant removes the handler and starts, and the second grant finds no handler. The calls are exactly prompt, stop, prompt, open, advertise. |
| `SessionTrace.StopDoesNotCancelPendingStart` | app/src/main/java/com/example/ble_peripheral/MainActivity.kt:120-124 | From any state with no server open: a start that must prompt, a stop, then a full grant with the radio on. The session ends advertising with a server open, because the stop leaves the permission handler registered. The calls are exactly prompt, stop, open, advertise. |
| `SessionTrace.StepIgnoresOpen` | app/src/main/java/com/example/ble_peripheral/MainActivity.kt:212-314 | Whether a server object is open decides only whether responses are sent. Two servers with the same subscriptions and stored values still agree on them after any callback. |
| `SessionTrace.RunContentsFollowReplay` | app/src/main/java/com/example/ble_peripheral/MainActivity.kt:114-161 | Starting, stopping, results and advertise callbacks never touch the subscription set or the stored values. After any session history these equal what replaying the history's GATT callbacks alone gives. |
| `SessionTrace.SessionSubscriptionFollowsLastDecision` | app/src/main/java/com/example/ble_peripheral/MainActivity.kt:154-161 | Across any number of stops and starts, a device is subscribed exactly when the last GATT event about it subscribed it. With no such event, it keeps its initial membership. |
| `SessionTrace.SessionWrittenIsLastWrite` | app/src/main/java/com/example/ble_peripheral/MainActivity.kt:246-258 | Across any number of stops and starts, the stored value is the one from the last write to the write characteristic, or the initial value when there was none. |

## Left out

- The UI is left out: the log panel, timestamps, scrolling and connection-state text. The read and written values are plain strings in the state. `ReadValueEdited` stands for the user editing the read text.
- The switch feedback loop is left out. Setting `isAdvertising` flips the switch after a delay, and the switch listener may then start or stop again. Each position of the switch is an explicit `Toggle` event instead.
- Threading is left out. `runOnUiThread` and `Handler().postDelayed` are assumed to run at once, in order. This includes the read response and the written-value update, which the source defers.
- UTF-8 conversion is a `Codec` parameter. No round trip is claimed, because decoding replaces invalid input.
- Android SDK objects are left out: `BluetoothManager`, the advertiser, `openGattServer`, `addService` and `sendResponse`. They appear only as emitted `Action`s. The `addService` result is not an input, because the source only logs it.
- Each handler map resumes one fixed continuation, because each map has a single caller. The closures themselves are not modelled.
- The advertising settings and data are left out, as are `onStartSuccess` (logging only) and the error-code-to-text mapping.
- Indications are never sent by the source. `onNotificationSent` only logs, so it is a no-op.
- `preparedWrite` and the request offsets are accepted and ignored, as in the source.
- Request ids, offsets and status codes are unbounded integers. The source never does arithmetic on them.
- Reopening a server that is already open is modelled as setting the open flag. The leaked earlier server object is not modelled.

=== FILE: base.dfy ===
/** Small value types shared by the GATT server model and the session model. */
module Base {

  /** A value that may be absent: Kotlin's nullable `T?`. */
  datatype Option<+T> = None | Some(value: T)

  /** Returns the carried value, or `default` when absent (Kotlin's `?:`). */
  function GetOr<T>(o: Option<T>, default: T): T
  {
    match o
    case Some(v) => v
    case None => default
  }

  /** An octet of an attribute value. */
  newtype byte = x: int | 0 <= x < 256

  type Bytes = seq<byte>
}

=== FILE: gatt.dfy ===
/**
 * The GATT attribute server of the peripheral: the `gattServerCallback`
 * object of MainActivity.kt. Requests are dispatched strictly on UUID over a
 * closed set (read, write and indicate characteristics, and the Client
 * Characteristic Configuration descriptor of the indicate characteristic);
 * each handler is a pure function from the server state and one request to
 * the next state and at most one response.
 */
module Gatt {
  import opened Base

  /** A 128-bit UUID. `java.util.UUID` compares by value, so equality here is
      equality of the 128-bit number. */
  newtype Uuid = x: int | 0 <= x < 0x1_0000_0000_0000_0000_0000_0000_0000_0000

  const SERVICE_UUID: Uuid := 0x9DF8A181_CE09_424C_AA19_65DD722BEA40
  const CHAR_FOR_READ_UUID: Uuid := 0x9DF8A182_CE09_424C_AA19_65DD722BEA40
  const CHAR_FOR_WRITE_UUID: Uuid := 0x9DF8A183_CE09_424C_AA19_65DD722BEA40
  const CHAR_FOR_INDICATE_UUID: Uuid := 0x9DF8A184_CE09_424C_AA19_65DD722BEA40
  /** The 16-bit CCC type 0x2902 on the Bluetooth base UUID. */
  const CCC_DESCRIPTOR_UUID: Uuid := 0x00002902_0000_1000_8000_00805F9B34FB

  /* Values of the Client Characteristic Configuration descriptor, a 16-bit
     little-endian bit field (Bluetooth Core Specification, Vol 3, Part G,
     section 3.3.3.3): bit 0 notifications, bit 1 indications. */
  const ENABLE_NOTIFICATION_VALUE: Bytes := [0x01, 0x00]
  const ENABLE_INDICATION_VALUE: Bytes := [0x02, 0x00]
  const DISABLE_NOTIFICATION_VALUE: Bytes := [0x00, 0x00]

  /** `BluetoothProfile.STATE_CONNECTED`; every other `newState` counts as a disconnect. */
  const STATE_CONNECTED: int := 2

  /** ATT error code "Request Not Supported" (Bluetooth Core Specification,
      Vol 3, Part F, section 3.4.1.1). */
  const ATT_REQUEST_NOT_SUPPORTED: byte := 0x06

  /** The GATT status carried by a response. */
  datatype Status =
    | Success              // GATT_SUCCESS
    | RequestNotSupported  // GATT_REQUEST_NOT_SUPPORTED
    | Failure              // GATT_FAILURE: a host-stack status, kept abstract

  /** The ATT-level code of a status, when it has one: success is 0 and
      Request Not Supported is 0x06; the generic failure has no ATT code. */
  function AttCode(s: Status): (c: Option<byte>)
    ensures c.Some? <==> s != Failure
    ensures c == Some(0) <==> s == Success
    ensures c == Some(ATT_REQUEST_NOT_SUPPORTED) <==> s == RequestNotSupported
  {
    match s
    case Success => Some(0)
    case RequestNotSupported => Some(ATT_REQUEST_NOT_SUPPORTED)
    case Failure => None
  }

  /** A remote central, identified by its transport address (as
      `BluetoothDevice.equals` does). */
  datatype Device = Device(address: string)

  /** The UTF-8 conversions of the platform, taken as given:
      `String.toByteArray(UTF_8)` and `ByteArray.toString(UTF_8)`. */
  datatype Codec = Codec(encode: string -> Bytes, decode: Bytes -> string)

  /** One call of `sendResponse(device, requestId, status, offset, value)`. */
  datatype Response = Response(device: Device, requestId: int, status: Status, offset: int, payload: Option<Bytes>)

  /**
   * The state the handlers read and write.
   *  - open: whether `gattServer` is non-null; responses are sent through
   *    `gattServer?.sendResponse`, so none leaves a closed server;
   *  - subscribed: `subscribedDevices`;
   *  - written: the last value stored by a write to the write characteristic;
   *  - readValue: the text served by the read characteristic.
   */
  datatype Server = Server(open: bool, subscribed: set<Device>, written: string, readValue: string)

  /** What a handler produces: the next state and at most one response. */
  datatype Handled = Handled(server: Server, response: Option<Response>)

  /** `gattServer?.sendResponse(...)` with offset 0. */
  function Send(s: Server, device: Device, requestId: int, status: Status, payload: Option<Bytes>): Option<Response>
  {
    if s.open then Some(Response(device, requestId, status, 0, payload)) else None
  }

  /** The value stored by a write: the decoded bytes, or "" for a null value. */
  function WrittenText(codec: Codec, value: Option<Bytes>): string
  {
    match value
    case Some(bytes) => codec.decode(bytes)
    case None => ""
  }

  /** The CCC value reported to `device`: the notification (not indication)
      pattern when subscribed, the disabled pattern otherwise. */
  function CccValue(s: Server, device: Device): Bytes
  {
    if device in s.subscribed then ENABLE_NOTIFICATION_VALUE else DISABLE_NOTIFICATION_VALUE
  }

  /** The descriptor writes that subscribe: the enable-indication pattern on
      the CCC of the indicate characteristic. */
  predicate IsSubscribe(uuid: Uuid, parentUuid: Uuid, value: Bytes)
  {
    uuid == CCC_DESCRIPTOR_UUID && parentUuid == CHAR_FOR_INDICATE_UUID && value == ENABLE_INDICATION_VALUE
  }

  /** The descriptor writes that unsubscribe: the disabled pattern on the CCC
      of the indicate characteristic. */
  predicate IsUnsubscribe(uuid: Uuid, parentUuid: Uuid, value: Bytes)
  {
    uuid == CCC_DESCRIPTOR_UUID && parentUuid == CHAR_FOR_INDICATE_UUID && value == DISABLE_NOTIFICATION_VALUE
  }

  /** `onConnectionStateChange`: a connect leaves the subscription set alone;
      any other new state drops exactly the reporting device. */
  function OnConnectionStateChange(s: Server, device: Device, status: int, newState: int): (s': Server)
    ensures s'.open == s.open && s'.written == s.written && s'.readValue == s.readValue
    ensures forall d :: d in s'.subscribed <==> d in s.subscribed && (d != device || newState == STATE_CONNECTED)
  {
    if newState == STATE_CONNECTED then s else s.(subscribed := s.subscribed - {device})
  }

  /** `onCharacteristicReadRequest`: always answered (while open), at offset 0
      whatever the requested offset; the read characteristic yields the
      encoded read value, any other UUID a failure without payload. */
  function OnCharacteristicRead(s: Server, codec: Codec, device: Device, requestId: int, offset: int, uuid: Uuid): (h: Handled)
    ensures h.server == s
    ensures h.response.Some? <==> s.open
    ensures s.open && uuid == CHAR_FOR_READ_UUID ==>
      h.response == Some(Response(device, requestId, Success, 0, Some(codec.encode(s.readValue))))
    ensures s.open && uuid != CHAR_FOR_READ_UUID ==>
      h.response == Some(Response(device, requestId, Failure, 0, None))
  {
    if uuid == CHAR_FOR_READ_UUID then
      Handled(s, Send(s, device, requestId, Success, Some(codec.encode(s.readValue))))
    else
      Handled(s, Send(s, device, requestId, Failure, None))
  }

  /** `onCharacteristicWriteRequest`: the write characteristic stores the
      decoded value whether or not a response is needed and echoes it
      re-encoded; any other UUID changes nothing and fails. A response is sent
      exactly when one is needed. `preparedWrite` and `offset` are not used. */
  function OnCharacteristicWrite(s: Server, codec: Codec, device: Device, requestId: int, uuid: Uuid,
                                 preparedWrite: bool, responseNeeded: bool, offset: int, value: Option<Bytes>): (h: Handled)
    ensures h.response.Some? <==> s.open && responseNeeded
    ensures uuid == CHAR_FOR_WRITE_UUID ==>
      && h.server == s.(written := WrittenText(codec, value))
      && (h.response.Some? ==> h.response.value == Response(device, requestId, Success, 0, Some(codec.encode(h.server.written))))
    ensures uuid != CHAR_FOR_WRITE_UUID ==>
      && h.server == s
      && (h.response.Some? ==> h.response.value == Response(device, requestId, Failure, 0, None))
  {
    if uuid == CHAR_FOR_WRITE_UUID then
      var text := WrittenText(codec, value);
      Handled(s.(written := text), if responseNeeded then Send(s, device, requestId, Success, Some(codec.encode(text))) else None)
    else
      Handled(s, if responseNeeded then Send(s, device, requestId, Failure, None) else None)
  }

  /** `onDescriptorReadRequest`: the CCC answers from the subscription set,
      without looking at the parent characteristic; any other UUID fails. */
  function OnDescriptorRead(s: Server, device: Device, requestId: int, offset: int, uuid: Uuid): (h: Handled)
    ensures h.server == s
    ensures h.response.Some? <==> s.open
    ensures s.open && uuid == CCC_DESCRIPTOR_UUID && device in s.subscribed ==>
      h.response == Some(Response(device, requestId, Success, 0, Some(ENABLE_NOTIFICATION_VALUE)))
    ensures s.open && uuid == CCC_DESCRIPTOR_UUID && device !in s.subscribed ==>
      h.response == Some(Response(device, requestId, Success, 0, Some(DISABLE_NOTIFICATION_VALUE)))
    ensures s.open && uuid != CCC_DESCRIPTOR_UUID ==>
      h.response == Some(Response(device, requestId, Failure, 0, None))
  {
    if uuid == CCC_DESCRIPTOR_UUID then
      Handled(s, Send(s, device, requestId, Success, Some(CccValue(s, device))))
    else
      Handled(s, Send(s, device, requestId, Failure, None))
  }

  /** `onDescriptorWriteRequest`: only the CCC of the indicate characteristic
      changes the subscription set, and only for the writing device; its
      status is success for the two recognised patterns and Request Not
      Supported otherwise (also for a CCC under another parent); a non-CCC
      descriptor fails. A response, without payload, is sent exactly when
      one is needed and the server is open. */
  function OnDescriptorWrite(s: Server, device: Device, requestId: int, uuid: Uuid, parentUuid: Uuid,
                             preparedWrite: bool, responseNeeded: bool, offset: int, value: Bytes): (h: Handled)
    ensures h.server == s.(subscribed := h.server.subscribed)
    ensures forall d :: d != device ==> (d in h.server.subscribed <==> d in s.subscribed)
    ensures IsSubscribe(uuid, parentUuid, value) ==> device in h.server.subscribed
    ensures IsUnsubscribe(uuid, parentUuid, value) ==> device !in h.server.subscribed
    ensures !IsSubscribe(uuid, parentUuid, value) && !IsUnsubscribe(uuid, parentUuid, value) ==> h.server == s
    ensures h.response.Some? <==> s.open && responseNeeded
    ensures h.response.Some? ==>
      && h.response.value.device == device && h.response.value.requestId == requestId
      && h.response.value.offset == 0 && h.response.value.payload == None
      && h.response.value.status ==
           if IsSubscribe(uuid, parentUuid, value) || IsUnsubscribe(uuid, parentUuid, value) then Success
           else if uuid == CCC_DESCRIPTOR_UUID then RequestNotSupported
           else Failure
  {
    if uuid == CCC_DESCRIPTOR_UUID then
      var (subscribed, status) :=
        if parentUuid == CHAR_FOR_INDICATE_UUID && value == ENABLE_INDICATION_VALUE then
          (s.subscribed + {device}, Success)
        else if parentUuid == CHAR_FOR_INDICATE_UUID && value == DISABLE_NOTIFICATION_VALUE then
          (s.subscribed - {device}, Success)
        else
          (s.subscribed, RequestNotSupported);
      var s' := s.(subscribed := subscribed);
      Handled(s', if responseNeeded then Send(s, device, requestId, status, None) else None)
    else
      Handled(s, if responseNeeded then Send(s, device, requestId, Failure, None) else None)
  }
}

=== FILE: gatt_trace.dfy ===
/**
 * The GATT server driven by a serial stream of callback events, and what
 * any such history determines: every request that needs an answer gets
 * exactly one, in order, while the server is open; a device's subscription
 * is decided by the last event about it; the stored value is the last one
 * written.
 */
module GattTrace {
  import opened Base
  import opened Gatt

  /** One callback of `BluetoothGattServerCallback`, or an edit of the text
      served by the read characteristic. */
  datatype Event =
    | ConnectionStateChange(device: Device, status: int, newState: int)
    | NotificationSent(device: Device, status: int)
    | CharacteristicRead(device: Device, requestId: int, offset: int, uuid: Uuid)
    | CharacteristicWrite(device: Device, requestId: int, uuid: Uuid, preparedWrite: bool,
                          responseNeeded: bool, offset: int, value: Option<Bytes>)
    | DescriptorRead(device: Device, requestId: int, offset: int, uuid: Uuid)
    | DescriptorWrite(device: Device, requestId: int, uuid: Uuid, parentUuid: Uuid, preparedWrite: bool,
                      responseNeeded: bool, offset: int, bytes: Bytes)
    | ReadValueEdited(text: string)

  /** The requests the GATT protocol expects an answer to: every read, and
      every write that asks for a response. */
  predicate NeedsResponse(e: Event)
  {
    || e.CharacteristicRead? || e.DescriptorRead?
    || (e.CharacteristicWrite? && e.responseNeeded)
    || (e.DescriptorWrite? && e.responseNeeded)
  }

  /** Dispatches one event to its handler. Only the open flag is out of the
      handlers' reach; a response, when there is one, answers this very
      request, and there is one exactly when the request needs it and the
      server is open. */
  function Step(s: Server, codec: Codec, e: Event): (h: Handled)
    ensures h.server.open == s.open
    ensures h.response.Some? <==> s.open && NeedsResponse(e)
    ensures h.response.Some? ==> h.response.value.device == e.device && h.response.value.requestId == e.requestId
  {
    match e
    case ConnectionStateChange(device, status, newState) =>
      Handled(OnConnectionStateChange(s, device, status, newState), None)
    case NotificationSent(_, _) =>
      Handled(s, None)
    case CharacteristicRead(device, requestId, offset, uuid) =>
      OnCharacteristicRead(s, codec, device, requestId, offset, uuid)
    case CharacteristicWrite(device, requestId, uuid, preparedWrite, responseNeeded, offset, value) =>
      OnCharacteristicWrite(s, codec, device, requestId, uuid, preparedWrite, responseNeeded, offset, value)
    case DescriptorRead(device, requestId, offset, uuid) =>
      OnDescriptorRead(s, device, requestId, offset, uuid)
    case DescriptorWrite(device, requestId, uuid, parentUuid, preparedWrite, responseNeeded, offset, bytes) =>
      OnDescriptorWrite(s, device, requestId, uuid, parentUuid, preparedWrite, responseNeeded, offset, bytes)
    case ReadValueEdited(text) =>
      Handled(s.(readValue := text), None)
  }

  function ToSeq<T>(o: Option<T>): seq<T>
  {
    match o
    case Some(v) => [v]
    case None => []
  }

  /** The state after a history and the responses sent during it, in order. */
  datatype Trace = Trace(server: Server, responses: seq<Response>)

  /** Delivers the events one at a time. No handler opens or closes the
      server, and no request is answered more than once. */
  function Replay(s: Server, codec: Codec, events: seq<Event>): (t: Trace)
    ensures t.server.open == s.open
    ensures |t.responses| <= |events|
    ensures !s.open ==> t.responses == []
    decreases |events|
  {
    if events == [] then Trace(s, [])
    else
      var h := Step(s, codec, events[0]);
      var rest := Replay(h.server, codec, events[1..]);
      Trace(rest.server, ToSeq(h.response) + rest.responses)
  }

  /** (device, requestId) of each event that needs an answer, in order. */
  function Demands(events: seq<Event>): seq<(Device, int)>
    decreases |events|
  {
    if events == [] then []
    else (if NeedsResponse(events[0]) then [(events[0].device, events[0].requestId)] else []) + Demands(events[1..])
  }

  /** (device, requestId) of each response, in order. */
  function Addressees(responses: seq<Response>): seq<(Device, int)>
    decreases |responses|
  {
    if responses == [] then [] else [(responses[0].device, responses[0].requestId)] + Addressees(responses[1..])
  }

  lemma {:induction false} AddresseesAppend(a: seq<Response>, b: seq<Response>)
    ensures Addressees(a + b) == Addressees(a) + Addressees(b)
    decreases |a|
  {
    if a == [] {
      assert a + b == b;
    } else {
      assert (a + b)[1..] == a[1..] + b;
      AddresseesAppend(a[1..], b);
    }
  }

  /** While the server is open, each request that needs an answer gets
      exactly one, in the order the requests came, and nothing else is sent;
      a closed server sends nothing. */
  lemma {:induction false} ReplayAnswersEachDemandOnce(s: Server, codec: Codec, events: seq<Event>)
    ensures Addressees(Replay(s, codec, events).responses) == if s.open then Demands(events) else []
    decreases |events|
  {
    if events != [] {
      var h := Step(s, codec, events[0]);
      var rest := Replay(h.server, codec, events[1..]);
      ReplayAnswersEachDemandOnce(h.server, codec, events[1..]);
      AddresseesAppend(ToSeq(h.response), rest.responses);
      if h.response.Some? {
        assert Addressees(ToSeq(h.response)) == [(events[0].device, events[0].requestId)];
      }
    }
  }

  /** Replaying a history extended by one event is one more step. */
  lemma {:induction false} ReplaySnoc(s: Server, codec: Codec, events: seq<Event>, e: Event)
    ensures Replay(s, codec, events + [e]).server == Step(Replay(s, codec, events).server, codec, e).server
    decreases |events|
  {
    if events == [] {
      assert events + [e] == [e];
      assert [e][1..] == [];
    } else {
      assert (events + [e])[0] == events[0];
      assert (events + [e])[1..] == events[1..] + [e];
      ReplaySnoc(Step(s, codec, events[0]).server, codec, events[1..], e);
    }
  }

  /** What one event decides about `d`'s subscription: `Some(true)` when it
      subscribes `d`, `Some(false)` when it drops `d`, `None` when it says
      nothing about `d`. */
  function SubscriptionEffect(d: Device, e: Event): Option<bool>
  {
    match e
    case ConnectionStateChange(device, _, newState) =>
      if device == d && newState != STATE_CONNECTED then Some(false) else None
    case DescriptorWrite(device, _, uuid, parentUuid, _, _, _, bytes) =>
      if device != d then None
      else if IsSubscribe(uuid, parentUuid, bytes) then Some(true)
      else if IsUnsubscribe(uuid, parentUuid, bytes) then Some(false)
      else None
    case _ => None
  }

  /** The latest decision a history makes about `d`, if any. */
  function LastDecision(d: Device, events: seq<Event>): Option<bool>
    decreases |events|
  {
    if events == [] then None
    else match SubscriptionEffect(d, events[|events| - 1])
      case Some(b) => Some(b)
      case None => LastDecision(d, events[..|events| - 1])
  }

  /** One step moves `d`'s membership exactly as its decision says. */
  lemma StepFollowsEffect(s: Server, codec: Codec, e: Event, d: Device)
    ensures d in Step(s, codec, e).server.subscribed <==> GetOr(SubscriptionEffect(d, e), d in s.subscribed)
  {
  }

  /** Subscription is decided by the last event about the device: after any
      history, `d` is subscribed exactly when the last enable-indication
      write, disable write or disconnect concerning `d` was the enable write,
      or, if there was none, when `d` was subscribed before. Events about
      other devices never touch `d`. */
  lemma {:induction false} SubscriptionFollowsLastDecision(s: Server, codec: Codec, events: seq<Event>, d: Device)
    ensures d in Replay(s, codec, events).server.subscribed <==> GetOr(LastDecision(d, events), d in s.subscribed)
    decreases |events|
  {
    if events != [] {
      var init := events[..|events| - 1];
      var e := events[|events| - 1];
      assert events == init + [e];
      ReplaySnoc(s, codec, init, e);
      SubscriptionFollowsLastDecision(s, codec, init, d);
      StepFollowsEffect(Replay(s, codec, init).server, codec, e, d);
    }
  }

  /** The value an event stores in the write characteristic, if it does. */
  function WriteEffect(codec: Codec, e: Event): Option<string>
  {
    if e.CharacteristicWrite? && e.uuid == CHAR_FOR_WRITE_UUID then Some(WrittenText(codec, e.value)) else None
  }

  /** The value stored by the latest write to the write characteristic. */
  function LastWrite(codec: Codec, events: seq<Event>): Option<string>
    decreases |events|
  {
    if events == [] then None
    else match WriteEffect(codec, events[|events| - 1])
      case Some(v) => Some(v)
      case None => LastWrite(codec, events[..|events| - 1])
  }

  /** After any history the stored value is the one written last, by
      whichever device, whether or not it asked for a response. */
  lemma {:induction false} WrittenIsLastWrite(s: Server, codec: Codec, events: seq<Event>)
    ensures Replay(s, codec, events).server.written == GetOr(LastWrite(codec, events), s.written)
    decreases |events|
  {
    if events != [] {
      var init := events[..|events| - 1];
      var e := events[|events| - 1];
      assert events == init + [e];
      ReplaySnoc(s, codec, init, e);
      WrittenIsLastWrite(s, codec, init);
    }
  }

  /** A CCC read by `d` after any history reports exactly the last decision
      about `d`: the enable-notification value after an enable-indication
      write, the disabled value after a disable write or a disconnect. */
  lemma CccReadReflectsHistory(s: Server, codec: Codec, events: seq<Event>, d: Device, requestId: int, offset: int)
    requires s.open
    ensures
      var t := Replay(s, codec, events + [DescriptorRead(d, requestId, offset, CCC_DESCRIPTOR_UUID)]);
      var subscribed := GetOr(LastDecision(d, events), d in s.subscribed);
      && |t.responses| > 0
      && t.responses[|t.responses| - 1] ==
           Response(d, requestId, Success, 0,
                    Some(if subscribed then ENABLE_NOTIFICATION_VALUE else DISABLE_NOTIFICATION_VALUE))
  {
    var e := DescriptorRead(d, requestId, offset, CCC_DESCRIPTOR_UUID);
    ReplayLastResponse(s, codec, events, e);
    SubscriptionFollowsLastDecision(s, codec, events, d);
  }

  /** The responses of a history extended by one event end with that
      event's response. */
  lemma {:induction false} ReplayLastResponse(s: Server, codec: Codec, events: seq<Event>, e: Event)
    ensures
      var h := Step(Replay(s, codec, events).server, codec, e);
      Replay(s, codec, events + [e]).responses == Replay(s, codec, events).responses + ToSeq(h.response)
    decreases |events|
  {
    if events == [] {
      assert events + [e] == [e];
      assert [e][1..] == [];
    } else {
      assert (events + [e])[0] == events[0];
      assert (events + [e])[1..] == events[1..] + [e];
      ReplayLastResponse(Step(s, codec, events[0]).server, codec, events[1..], e);
    }
  }

  /** Subscribing twice is subscribing once, and so is unsubscribing. */
  lemma CccWritesIdempotent(s: Server, d: Device, id1: int, id2: int, parentUuid: Uuid, value: Bytes, responseNeeded: bool)
    requires value == ENABLE_INDICATION_VALUE || value == DISABLE_NOTIFICATION_VALUE
    ensures
      var once := OnDescriptorWrite(s, d, id1, CCC_DESCRIPTOR_UUID, parentUuid, false, responseNeeded, 0, value);
      var twice := OnDescriptorWrite(once.server, d, id2, CCC_DESCRIPTOR_UUID, parentUuid, false, responseNeeded, 0, value);
      twice.server == once.server
  {
  }

  /** On the wire, a CCC write on an open server that asks for a response is
      answered with ATT code 0 when it subscribes or unsubscribes, and with
      Request Not Supported (0x06) for any other value or parent. */
  lemma CccWriteAttCodes(s: Server, d: Device, requestId: int, parentUuid: Uuid, value: Bytes)
    requires s.open
    ensures
      var h := OnDescriptorWrite(s, d, requestId, CCC_DESCRIPTOR_UUID, parentUuid, false, true, 0, value);
      var recognised := parentUuid == CHAR_FOR_INDICATE_UUID
                        && (value == ENABLE_INDICATION_VALUE || value == DISABLE_NOTIFICATION_VALUE);
      && h.response.Some?
      && AttCode(h.response.value.status) == if recognised then Some(0) else Some(ATT_REQUEST_NOT_SUPPORTED)
  {
  }

  /** Read and write characteristics hold independent values: a write is
      echoed, but a following read serves the read value. */
  lemma WriteThenReadServesReadValue(s: Server, codec: Codec, a: Device, b: Device, text: Bytes)
    requires s.open
    ensures
      var t := Replay(s, codec, [CharacteristicWrite(a, 1, CHAR_FOR_WRITE_UUID, false, true, 0, Some(text)),
                                 CharacteristicRead(b, 2, 0, CHAR_FOR_READ_UUID)]);
      && t.server.written == codec.decode(text)
      && t.responses == [Response(a, 1, Success, 0, Some(codec.encode(codec.decode(text)))),
                         Response(b, 2, Success, 0, Some(codec.encode(s.readValue)))]
  {
    var events := [CharacteristicWrite(a, 1, CHAR_FOR_WRITE_UUID, false, true, 0, Some(text)),
                   CharacteristicRead(b, 2, 0, CHAR_FOR_READ_UUID)];
    var s1 := Step(s, codec, events[0]).server;
    assert events[1..] == [events[1]];
    assert [events[1]][1..] == [];
    assert Replay(s1, codec, [events[1]]).server == s1;
  }

  /** A subscription is recorded for a device that never reported a
      connection: nothing ties membership to a live connection. */
  lemma SubscribeWithoutConnection(codec: Codec, a: Device)
    ensures
      var s := Server(true, {}, "", "");
      a in Replay(s, codec, [DescriptorWrite(a, 1, CCC_DESCRIPTOR_UUID, CHAR_FOR_INDICATE_UUID, false, false, 0,
                                             ENABLE_INDICATION_VALUE)]).server.subscribed
  {
  }

  /** Subscribe, disconnect, another device reads the CCC: it sees disabled,
      and the first device is no longer subscribed. */
  lemma DisconnectClearsSubscription(codec: Codec, a: Device, b: Device)
    requires a != b
    ensures
      var s := Server(true, {}, "", "");
      var t := Replay(s, codec, [DescriptorWrite(a, 1, CCC_DESCRIPTOR_UUID, CHAR_FOR_INDICATE_UUID, false, true, 0,
                                                 ENABLE_INDICATION_VALUE),
                                 ConnectionStateChange(a, 0, 0),
                                 ConnectionStateChange(b, 0, STATE_CONNECTED),
                                 DescriptorRead(b, 2, 0, CCC_DESCRIPTOR_UUID)]);
      && t.server.subscribed == {}
      && t.responses == [Response(a, 1, Success, 0, None),
                         Response(b, 2, Success, 0, Some(DISABLE_NOTIFICATION_VALUE))]
  {
    var s := Server(true, {}, "", "");
    var events := [DescriptorWrite(a, 1, CCC_DESCRIPTOR_UUID, CHAR_FOR_INDICATE_UUID, false, true, 0,
                                   ENABLE_INDICATION_VALUE),
                   ConnectionStateChange(a, 0, 0),
                   ConnectionStateChange(b, 0, STATE_CONNECTED),
                   DescriptorRead(b, 2, 0, CCC_DESCRIPTOR_UUID)];
    var s1 := Step(s, codec, events[0]).server;
    assert s1.subscribed == {a};
    var s2 := Step(s1, codec, events[1]).server;
    assert s2.subscribed == {};
    var s3 := Step(s2, codec, events[2]).server;
    assert s3 == s2;
    var h3 := Step(s3, codec, events[3]);
    assert b !in s3.subscribed;
    assert h3 == Handled(s2, Some(Response(b, 2, Success, 0, Some(DISABLE_NOTIFICATION_VALUE))));
    var t3 := Replay(s3, codec, [events[3]]);
    assert [events[3]][1..] == [];
    assert Replay(s2, codec, []) == Trace(s2, []);
    assert ToSeq(h3.response) == [Response(b, 2, Success, 0, Some(DISABLE_NOTIFICATION_VALUE))];
    assert t3 == Trace(s2, [Response(b, 2, Success, 0, Some(DISABLE_NOTIFICATION_VALUE))]);
    assert events[1..][1..][1..] == [events[3]];
    assert Replay(s2, codec, events[1..][1..]) == t3;
    assert Replay(s1, codec, events[1..]) == t3;
  }
}

=== FILE: session.dfy ===
/**
 * The advertising session of MainActivity.kt: the `isAdvertising` flag, the
 * precondition chain of `ensureBluetoothCanBeUsed` (permissions first, then
 * the radio), the result handlers registered per request code with their
 * AskOnce / InsistUntilSuccess retry decision, and the start and stop
 * sequences that open and close the GATT server around advertising.
 * Calls into the OS become emitted actions; what the OS reports when asked
 * (platform level, permissions held, radio state) is an input.
 */
module Session {
  import opened Base
  import Gatt
  import GattTrace

  datatype AskType = AskOnce | InsistUntilSuccess

  const ENABLE_BLUETOOTH_REQUEST_CODE: int := 1
  const BLUETOOTH_ALL_PERMISSIONS_REQUEST_CODE: int := 2
  /** `Activity.RESULT_OK`. */
  const RESULT_OK: int := -1
  /** `PackageManager.PERMISSION_GRANTED`. */
  const PERMISSION_GRANTED: int := 0
  /** `Build.VERSION_CODES.S`, the first level with runtime Bluetooth permissions. */
  const VERSION_CODES_S: int := 31

  datatype Permission = BluetoothConnect | BluetoothAdvertise

  /** What the OS answers when asked: `Build.VERSION.SDK_INT`, the
      permissions `checkSelfPermission` reports as granted, and
      `bluetoothAdapter.isEnabled`. */
  datatype Env = Env(sdkInt: int, held: set<Permission>, radioEnabled: bool)

  /** A registered permission-result handler: its retry policy and the
      permissions it asks for again on a retry. */
  datatype PermissionHandler = PermissionHandler(askType: AskType, wanted: seq<Permission>)

  /** Calls the session makes into the OS, in the order made. */
  datatype Action =
    | RequestPermissions(permissions: seq<Permission>, requestCode: int)  // requestPermissions
    | RequestEnable(requestCode: int)     // startActivityForResult(ACTION_REQUEST_ENABLE)
    | OpenGattServer                      // openGattServer + addService (its result is only logged)
    | StartAdvertising
    | CloseGattServer
    | StopAdvertising
    | SendResponse(response: Gatt.Response)

  /**
   * The activity's state:
   *  - isAdvertising: the user-visible advertising flag;
   *  - gatt: the GATT server state (its `open` flag is `gattServer != null`);
   *  - activityHandlers / permissionHandlers: the handler maps keyed by
   *    request code. The continuation each handler resumes is fixed by its
   *    map, since each map has a single caller in ensureBluetoothCanBeUsed.
   */
  datatype Peripheral = Peripheral(
    isAdvertising: bool,
    gatt: Gatt.Server,
    activityHandlers: map<int, AskType>,
    permissionHandlers: map<int, PermissionHandler>)

  /** The state after handling one event, and the calls made meanwhile. */
  datatype Next = Next(p: Peripheral, actions: seq<Action>)

  /** The permissions the platform level requires at run time. */
  function WantedPermissions(sdkInt: int): seq<Permission>
  {
    if sdkInt >= VERSION_CODES_S then [BluetoothConnect, BluetoothAdvertise] else []
  }

  /** `hasPermissions`: every wanted permission is already granted. */
  predicate HasPermissions(held: set<Permission>, wanted: seq<Permission>)
  {
    forall i :: 0 <= i < |wanted| ==> wanted[i] in held
  }

  /** Whether starting must prompt for permissions: something is wanted and
      not everything wanted is held. */
  predicate NeedsPermissionPrompt(env: Env)
  {
    var wanted := WantedPermissions(env.sdkInt);
    |wanted| != 0 && !HasPermissions(env.held, wanted)
  }

  /** `grantResults.all { it == PERMISSION_GRANTED }`; true of an empty array. */
  function AllGranted(grantResults: seq<int>): (r: bool)
    ensures r <==> forall i :: 0 <= i < |grantResults| ==> grantResults[i] == PERMISSION_GRANTED
    decreases |grantResults|
  {
    if grantResults == [] then true
    else grantResults[0] == PERMISSION_GRANTED && AllGranted(grantResults[1..])
  }

  /** `bleStartAdvertising`: set the flag, open the GATT server (the
      subscription set is kept), then start advertising. */
  function BleStartAdvertising(p: Peripheral): (n: Next)
    ensures n.p.isAdvertising && n.p.gatt.open
    ensures n.p.gatt.subscribed == p.gatt.subscribed && n.p.gatt.written == p.gatt.written
    ensures n.p.gatt.readValue == p.gatt.readValue
    ensures n.p.activityHandlers == p.activityHandlers && n.p.permissionHandlers == p.permissionHandlers
    ensures n.actions == [OpenGattServer, StartAdvertising]
  {
    Next(p.(isAdvertising := true, gatt := p.gatt.(open := true)), [OpenGattServer, StartAdvertising])
  }

  /** `bleStopAdvertising` (also `onDestroy`): clear the flag, close the GATT
      server if one is open, and only then stop advertising. The
      subscription set and pending result handlers survive. */
  function BleStopAdvertising(p: Peripheral): (n: Next)
    ensures !n.p.isAdvertising && !n.p.gatt.open
    ensures n.p.gatt.subscribed == p.gatt.subscribed && n.p.gatt.written == p.gatt.written
    ensures n.p.gatt.readValue == p.gatt.readValue
    ensures n.p.activityHandlers == p.activityHandlers && n.p.permissionHandlers == p.permissionHandlers
    ensures |n.actions| == if p.gatt.open then 2 else 1
    ensures n.actions[|n.actions| - 1] == StopAdvertising
    ensures CloseGattServer in n.actions <==> p.gatt.open
    ensures p.gatt.open ==> n.actions[0] == CloseGattServer
  {
    var closing := if p.gatt.open then [CloseGattServer] else [];
    Next(p.(isAdvertising := false, gatt := p.gatt.(open := false)), closing + [StopAdvertising])
  }

  /** The completion passed by `prepareAndStartAdvertising`: start on
      success, otherwise only clear the flag. */
  function Finish(p: Peripheral, isSuccess: bool): (n: Next)
    ensures n.p.isAdvertising == isSuccess
    ensures n.p.activityHandlers == p.activityHandlers && n.p.permissionHandlers == p.permissionHandlers
    ensures n.p.gatt.subscribed == p.gatt.subscribed
    ensures isSuccess ==> n.p.gatt == p.gatt.(open := true) && n.actions == [OpenGattServer, StartAdvertising]
    ensures !isSuccess ==> n.p.gatt == p.gatt && n.actions == []
  {
    if isSuccess then BleStartAdvertising(p) else Next(p.(isAdvertising := false), [])
  }

  /** `enableBluetooth`: an enabled radio completes at once; otherwise the
      handler for request code 1 is (re)registered and enabling is asked. */
  function EnableBluetooth(p: Peripheral, env: Env, askType: AskType): (n: Next)
    ensures n.p.permissionHandlers == p.permissionHandlers
    ensures env.radioEnabled ==>
      && n.p.isAdvertising && n.p.gatt == p.gatt.(open := true)
      && n.p.activityHandlers == p.activityHandlers
      && n.actions == [OpenGattServer, StartAdvertising]
    ensures !env.radioEnabled ==>
      && n.p == p.(activityHandlers := p.activityHandlers[ENABLE_BLUETOOTH_REQUEST_CODE := askType])
      && n.actions == [RequestEnable(ENABLE_BLUETOOTH_REQUEST_CODE)]
  {
    if env.radioEnabled then Finish(p, true)
    else
      Next(p.(activityHandlers := p.activityHandlers[ENABLE_BLUETOOTH_REQUEST_CODE := askType]),
           [RequestEnable(ENABLE_BLUETOOTH_REQUEST_CODE)])
  }

  /** The permission completion inside `ensureBluetoothCanBeUsed`: a denial
      completes with false; a grant moves on to the radio, asking once. */
  function AfterPermissions(p: Peripheral, env: Env, isGranted: bool): (n: Next)
    ensures n.p.permissionHandlers == p.permissionHandlers
    ensures !isGranted ==> n == Next(p.(isAdvertising := false), [])
    ensures isGranted && env.radioEnabled ==>
      && n.p.isAdvertising && n.p.gatt == p.gatt.(open := true)
      && n.p.activityHandlers == p.activityHandlers
      && n.actions == [OpenGattServer, StartAdvertising]
    ensures isGranted && !env.radioEnabled ==>
      && n.p == p.(activityHandlers := p.activityHandlers[ENABLE_BLUETOOTH_REQUEST_CODE := AskOnce])
      && n.actions == [RequestEnable(ENABLE_BLUETOOTH_REQUEST_CODE)]
  {
    if !isGranted then Finish(p, false) else EnableBluetooth(p, env, AskOnce)
  }

  /** `grantBluetoothPeripheralPermissions`: when nothing is wanted or all is
      held it completes with true at once; otherwise the handler for request
      code 2 is (re)registered and the permissions are requested. */
  function GrantPermissions(p: Peripheral, env: Env, askType: AskType): (n: Next)
    ensures NeedsPermissionPrompt(env) ==>
      && n.p == p.(permissionHandlers := p.permissionHandlers[BLUETOOTH_ALL_PERMISSIONS_REQUEST_CODE :=
                                                                PermissionHandler(askType, WantedPermissions(env.sdkInt))])
      && n.actions == [RequestPermissions(WantedPermissions(env.sdkInt), BLUETOOTH_ALL_PERMISSIONS_REQUEST_CODE)]
    ensures !NeedsPermissionPrompt(env) && env.radioEnabled ==>
      && n.p == p.(isAdvertising := true, gatt := p.gatt.(open := true))
      && n.actions == [OpenGattServer, StartAdvertising]
    ensures !NeedsPermissionPrompt(env) && !env.radioEnabled ==>
      && n.p == p.(activityHandlers := p.activityHandlers[ENABLE_BLUETOOTH_REQUEST_CODE := AskOnce])
      && n.actions == [RequestEnable(ENABLE_BLUETOOTH_REQUEST_CODE)]
  {
    var wanted := WantedPermissions(env.sdkInt);
    if |wanted| == 0 || HasPermissions(env.held, wanted) then AfterPermissions(p, env, true)
    else
      Next(p.(permissionHandlers := p.permissionHandlers[BLUETOOTH_ALL_PERMISSIONS_REQUEST_CODE :=
                                                           PermissionHandler(askType, wanted)]),
           [RequestPermissions(wanted, BLUETOOTH_ALL_PERMISSIONS_REQUEST_CODE)])
  }

  /** `prepareAndStartAdvertising`: permissions are looked at first and the
      radio only when no prompt is needed; with both in place the flag is
      set, the GATT server opened, then advertising started. */
  function PrepareAndStartAdvertising(p: Peripheral, env: Env): (n: Next)
    ensures NeedsPermissionPrompt(env) ==>
      && n.actions == [RequestPermissions(WantedPermissions(env.sdkInt), BLUETOOTH_ALL_PERMISSIONS_REQUEST_CODE)]
      && n.p.isAdvertising == p.isAdvertising && n.p.gatt == p.gatt
      && n.p.activityHandlers == p.activityHandlers
      && n.p.permissionHandlers == p.permissionHandlers[BLUETOOTH_ALL_PERMISSIONS_REQUEST_CODE :=
                                                          PermissionHandler(AskOnce, WantedPermissions(env.sdkInt))]
    ensures !NeedsPermissionPrompt(env) && !env.radioEnabled ==>
      && n.actions == [RequestEnable(ENABLE_BLUETOOTH_REQUEST_CODE)]
      && n.p.isAdvertising == p.isAdvertising && n.p.gatt == p.gatt
      && n.p.activityHandlers == p.activityHandlers[ENABLE_BLUETOOTH_REQUEST_CODE := AskOnce]
      && n.p.permissionHandlers == p.permissionHandlers
    ensures !NeedsPermissionPrompt(env) && env.radioEnabled ==>
      && n.actions == [OpenGattServer, StartAdvertising]
      && n.p.isAdvertising && n.p.gatt == p.gatt.(open := true)
      && n.p.activityHandlers == p.activityHandlers && n.p.permissionHandlers == p.permissionHandlers
  {
    GrantPermissions(p, env, AskOnce)
  }

  /** `onRequestPermissionsResult`: with no handler for the code nothing
      happens. Otherwise success is "every result granted" (vacuously so for
      an empty array). On success, or when the handler asks only once, the
      handler is removed and the chain resumes exactly once: a refusal clears
      the flag and does nothing else, a grant goes on to the radio. A refused
      InsistUntilSuccess handler stays registered and asks again. */
  function OnRequestPermissionsResult(p: Peripheral, env: Env, requestCode: int, grantResults: seq<int>): (n: Next)
    ensures requestCode !in p.permissionHandlers ==> n == Next(p, [])
    ensures requestCode in p.permissionHandlers ==>
      var h := p.permissionHandlers[requestCode];
      var isSuccess := forall i :: 0 <= i < |grantResults| ==> grantResults[i] == PERMISSION_GRANTED;
      && (isSuccess || h.askType == AskOnce ==>
            && n.p.permissionHandlers == p.permissionHandlers - {requestCode}
            && (!isSuccess ==> n == Next(p.(isAdvertising := false, permissionHandlers := n.p.permissionHandlers), []))
            && (isSuccess && env.radioEnabled ==>
                  && n.p.isAdvertising && n.p.gatt == p.gatt.(open := true)
                  && n.p.activityHandlers == p.activityHandlers
                  && n.actions == [OpenGattServer, StartAdvertising])
            && (isSuccess && !env.radioEnabled ==>
                  && n.p.isAdvertising == p.isAdvertising && n.p.gatt == p.gatt
                  && n.p.activityHandlers == p.activityHandlers[ENABLE_BLUETOOTH_REQUEST_CODE := AskOnce]
                  && n.actions == [RequestEnable(ENABLE_BLUETOOTH_REQUEST_CODE)]))
      && (!isSuccess && h.askType == InsistUntilSuccess ==>
            n == Next(p, [RequestPermissions(h.wanted, requestCode)]))
  {
    if requestCode !in p.permissionHandlers then Next(p, [])
    else
      var h := p.permissionHandlers[requestCode];
      var isSuccess := AllGranted(grantResults);
      if isSuccess || h.askType != InsistUntilSuccess then
        AfterPermissions(p.(permissionHandlers := p.permissionHandlers - {requestCode}), env, isSuccess)
      else
        Next(p, [RequestPermissions(h.wanted, requestCode)])
  }

  /** `onActivityResult`: with no handler for the code nothing happens.
      Otherwise success is `RESULT_OK`. On success, or when the handler asks
      only once, the handler is removed and the start completes exactly once:
      success sets the flag, opens the GATT server and starts advertising, a
      refusal only clears the flag. A refused InsistUntilSuccess handler
      stays registered and asks again. */
  function OnActivityResult(p: Peripheral, requestCode: int, resultCode: int): (n: Next)
    ensures requestCode !in p.activityHandlers ==> n == Next(p, [])
    ensures requestCode in p.activityHandlers ==>
      var isSuccess := resultCode == RESULT_OK;
      && (isSuccess || p.activityHandlers[requestCode] == AskOnce ==>
            && n.p.activityHandlers == p.activityHandlers - {requestCode}
            && n.p.permissionHandlers == p.permissionHandlers
            && n.p.isAdvertising == isSuccess
            && n.p.gatt == p.gatt.(open := p.gatt.open || isSuccess)
            && n.actions == if isSuccess then [OpenGattServer, StartAdvertising] else [])
      && (!isSuccess && p.activityHandlers[requestCode] == InsistUntilSuccess ==>
            n == Next(p, [RequestEnable(requestCode)]))
  {
    if requestCode !in p.activityHandlers then Next(p, [])
    else
      var isSuccess := resultCode == RESULT_OK;
      if isSuccess || p.activityHandlers[requestCode] != InsistUntilSuccess then
        Finish(p.(activityHandlers := p.activityHandlers - {requestCode}), isSuccess)
      else
        Next(p, [RequestEnable(requestCode)])
  }

  /** `onStartFailure`: only the flag is cleared; the GATT server stays open. */
  function OnStartFailure(p: Peripheral, errorCode: int): (n: Next)
    ensures !n.p.isAdvertising && n.actions == []
    ensures n.p.gatt == p.gatt
    ensures n.p.activityHandlers == p.activityHandlers && n.p.permissionHandlers == p.permissionHandlers
  {
    Next(p.(isAdvertising := false), [])
  }

  /** Inputs to the activity: the user's switch (on starts, off stops), the
      activity being destroyed, OS results and GATT callbacks. */
  datatype Event =
    | Toggle(isChecked: bool, env: Env)
    | Destroy
    | PermissionsResult(requestCode: int, grantResults: seq<int>, env: Env)
    | ActivityResult(requestCode: int, resultCode: int)
    | AdvertiseStartSuccess
    | AdvertiseStartFailure(errorCode: int)
    | GattEvent(event: GattTrace.Event)

  /** The GATT server handles its callback and its response, if any, is sent. */
  function OnGattEvent(p: Peripheral, codec: Gatt.Codec, e: GattTrace.Event): (n: Next)
    ensures n.p == p.(gatt := GattTrace.Step(p.gatt, codec, e).server)
    ensures |n.actions| <= 1
    ensures |n.actions| == 1 <==> p.gatt.open && GattTrace.NeedsResponse(e)
    ensures |n.actions| == 1 ==>
      && n.actions[0].SendResponse?
      && Some(n.actions[0].response) == GattTrace.Step(p.gatt, codec, e).response
      && n.actions[0].response.device == e.device && n.actions[0].response.requestId == e.requestId
  {
    var h := GattTrace.Step(p.gatt, codec, e);
    Next(p.(gatt := h.server), if h.response.Some? then [SendResponse(h.response.value)] else [])
  }

  /** Routes one input: the switch listener (on starts, off stops),
      `onDestroy` (stops), `onRequestPermissionsResult` and
      `onActivityResult` (looked up by request code), the advertise callback
      and the GATT callbacks. Only GATT callbacks touch the subscription set
      and the stored values; a stop closes an open server, then stops
      advertising, and changes nothing else; a result for a code with a
      handler either resolves it (the handler is removed and the start
      completes) or, refused under InsistUntilSuccess, asks again; results for
      codes without a handler and advertise success change nothing; an
      advertise failure only clears the flag; switching on prompts for
      permissions, asks for the radio, or starts, in that order of
      precedence. Every request is made with its handler registered. */
  function Handle(p: Peripheral, codec: Gatt.Codec, e: Event): (n: Next)
    ensures !e.GattEvent? ==>
      && n.p.gatt.subscribed == p.gatt.subscribed
      && n.p.gatt.written == p.gatt.written && n.p.gatt.readValue == p.gatt.readValue
    ensures e.GattEvent? ==>
      && n.p == p.(gatt := n.p.gatt)
      && (forall a :: a in n.actions ==> a.SendResponse?)
    ensures e == Destroy || (e.Toggle? && !e.isChecked) ==>
      && n.p == p.(isAdvertising := false, gatt := p.gatt.(open := false))
      && n.actions == (if p.gatt.open then [CloseGattServer] else []) + [StopAdvertising]
    ensures e.Toggle? && e.isChecked ==>
      n.p.gatt.open == (p.gatt.open || (!NeedsPermissionPrompt(e.env) && e.env.radioEnabled))
    ensures e.Toggle? && e.isChecked && NeedsPermissionPrompt(e.env) ==>
      n.actions == [RequestPermissions(WantedPermissions(e.env.sdkInt), BLUETOOTH_ALL_PERMISSIONS_REQUEST_CODE)]
    ensures e.Toggle? && e.isChecked && !NeedsPermissionPrompt(e.env) ==>
      n.actions == if e.env.radioEnabled then [OpenGattServer, StartAdvertising]
                   else [RequestEnable(ENABLE_BLUETOOTH_REQUEST_CODE)]
    ensures forall a :: a in n.actions && a.RequestEnable? ==> a.requestCode in n.p.activityHandlers
    ensures forall a :: a in n.actions && a.RequestPermissions? ==> a.requestCode in n.p.permissionHandlers
    ensures e.ActivityResult? ==> n.p.permissionHandlers == p.permissionHandlers
    ensures e.PermissionsResult? || e.ActivityResult? ==> n.p.gatt.open == (p.gatt.open || OpenGattServer in n.actions)
    ensures e.PermissionsResult? && e.requestCode !in p.permissionHandlers ==> n == Next(p, [])
    ensures e.PermissionsResult? && e.requestCode in p.permissionHandlers ==>
      var h := p.permissionHandlers[e.requestCode];
      var isSuccess := AllGranted(e.grantResults);
      && (isSuccess || h.askType == AskOnce ==>
            && n.p.permissionHandlers == p.permissionHandlers - {e.requestCode}
            && n.p.isAdvertising == (isSuccess && (e.env.radioEnabled || p.isAdvertising))
            && n.actions == if !isSuccess then []
                            else if e.env.radioEnabled then [OpenGattServer, StartAdvertising]
                            else [RequestEnable(ENABLE_BLUETOOTH_REQUEST_CODE)])
      && (!isSuccess && h.askType == InsistUntilSuccess ==>
            n == Next(p, [RequestPermissions(h.wanted, e.requestCode)]))
    ensures e.ActivityResult? && e.requestCode !in p.activityHandlers ==> n == Next(p, [])
    ensures e.ActivityResult? && e.requestCode in p.activityHandlers ==>
      var isSuccess := e.resultCode == RESULT_OK;
      && (isSuccess || p.activityHandlers[e.requestCode] == AskOnce ==>
            && n.p.activityHandlers == p.activityHandlers - {e.requestCode}
            && n.p.isAdvertising == isSuccess
            && n.actions == if isSuccess then [OpenGattServer, StartAdvertising] else [])
      && (!isSuccess && p.activityHandlers[e.requestCode] == InsistUntilSuccess ==>
            n == Next(p, [RequestEnable(e.requestCode)]))
    ensures e == AdvertiseStartSuccess ==> n == Next(p, [])
    ensures e.AdvertiseStartFailure? ==> n == Next(p.(isAdvertising := false), [])
  {
    match e
    case Toggle(isChecked, env) => if isChecked then PrepareAndStartAdvertising(p, env) else BleStopAdvertising(p)
    case Destroy => BleStopAdvertising(p)
    case PermissionsResult(requestCode, grantResults, env) => OnRequestPermissionsResult(p, env, requestCode, grantResults)
    case ActivityResult(requestCode, resultCode) => OnActivityResult(p, requestCode, resultCode)
    case AdvertiseStartSuccess => Next(p, [])
    case AdvertiseStartFailure(errorCode) => OnStartFailure(p, errorCode)
    case GattEvent(ge) => OnGattEvent(p, codec, ge)
  }
}

=== FILE: session_trace.dfy ===
/**
 * The activity driven by a serial stream of events: what holds after any
 * history (the advertising flag implies an open GATT server; the only
 * handlers ever registered ask once), how the two retry policies behave,
 * and histories showing what the code does not do.
 */
module SessionTrace {
  import opened Base
  import Gatt
  import GattTrace
  import opened Session

  /** Handles the events one at a time, collecting the calls made. */
  function Run(p: Peripheral, codec: Gatt.Codec, events: seq<Event>): Next
    decreases |events|
  {
    if events == [] then Next(p, [])
    else
      var first := Handle(p, codec, events[0]);
      var rest := Run(first.p, codec, events[1..]);
      Next(rest.p, first.actions + rest.actions)
  }

  /** The activity as created: not advertising, no GATT server, no pending
      requests; the two texts are whatever the layout holds. */
  function Initial(written: string, readValue: string): Peripheral
  {
    Peripheral(false, Gatt.Server(false, {}, written, readValue), map[], map[])
  }

  /** What holds in every reachable state: the advertising flag is only set
      while a GATT server is open, handlers are registered only under their
      own request codes, and every registered handler asks once. */
  predicate Consistent(p: Peripheral)
  {
    && (p.isAdvertising ==> p.gatt.open)
    && p.activityHandlers.Keys <= {ENABLE_BLUETOOTH_REQUEST_CODE}
    && p.permissionHandlers.Keys <= {BLUETOOTH_ALL_PERMISSIONS_REQUEST_CODE}
    && (forall c :: c in p.activityHandlers ==> p.activityHandlers[c] == AskOnce)
    && (forall c :: c in p.permissionHandlers ==> p.permissionHandlers[c].askType == AskOnce)
  }

  /** Every event keeps the session consistent. */
  lemma HandlePreservesConsistent(p: Peripheral, codec: Gatt.Codec, e: Event)
    requires Consistent(p)
    ensures Consistent(Handle(p, codec, e).p)
  {
  }

  /** Every history from a consistent state ends in one; in particular every
      history from the initial state. */
  lemma {:induction false} RunPreservesConsistent(p: Peripheral, codec: Gatt.Codec, events: seq<Event>)
    requires Consistent(p)
    ensures Consistent(Run(p, codec, events).p)
    decreases |events|
  {
    if events != [] {
      HandlePreservesConsistent(p, codec, events[0]);
      RunPreservesConsistent(Handle(p, codec, events[0]).p, codec, events[1..]);
    }
  }

  /** Since the start sequence asks once for both preconditions, any result
      delivered in a reachable state resolves its request: the handler is
      gone afterwards and nothing is asked again. */
  lemma AskOnceNeverRetries(p: Peripheral, codec: Gatt.Codec, e: Event)
    requires Consistent(p)
    requires e.PermissionsResult? || e.ActivityResult?
    ensures e.PermissionsResult? ==>
      && e.requestCode !in Handle(p, codec, e).p.permissionHandlers
      && (forall a :: a in Handle(p, codec, e).actions ==> !a.RequestPermissions?)
    ensures e.ActivityResult? ==>
      && e.requestCode !in Handle(p, codec, e).p.activityHandlers
      && (forall a :: a in Handle(p, codec, e).actions ==> !a.RequestEnable?)
  {
  }

  /** A result handler completes at most once: once a result has been
      handled, a second result for the same code does nothing. */
  lemma ResultCompletesOnce(p: Peripheral, codec: Gatt.Codec, e: Event)
    requires Consistent(p)
    requires e.PermissionsResult? || e.ActivityResult?
    ensures var q := Handle(p, codec, e).p; Handle(q, codec, e) == Next(q, [])
  {
  }

  /** A refused result for an InsistUntilSuccess permission handler changes
      nothing and asks again; so does every further refusal. */
  lemma {:induction false} InsistAsksAgainOnEveryRefusal(p: Peripheral, codec: Gatt.Codec, events: seq<Event>, code: int)
    requires code in p.permissionHandlers && p.permissionHandlers[code].askType == InsistUntilSuccess
    requires forall i :: 0 <= i < |events| ==>
      events[i].PermissionsResult? && events[i].requestCode == code && !AllGranted(events[i].grantResults)
    ensures Run(p, codec, events) == Next(p, seq(|events|, _ => RequestPermissions(p.permissionHandlers[code].wanted, code)))
    decreases |events|
  {
    if events != [] {
      var ask := RequestPermissions(p.permissionHandlers[code].wanted, code);
      assert Handle(p, codec, events[0]) == Next(p, [ask]);
      InsistAsksAgainOnEveryRefusal(p, codec, events[1..], code);
      assert [ask] + seq(|events| - 1, _ => ask) == seq(|events|, _ => ask);
    }
  }

  /** An InsistUntilSuccess handler resolves on the first full grant. */
  lemma InsistCompletesOnGrant(p: Peripheral, codec: Gatt.Codec, code: int, grantResults: seq<int>, env: Env)
    requires code in p.permissionHandlers && p.permissionHandlers[code].askType == InsistUntilSuccess
    requires forall i :: 0 <= i < |grantResults| ==> grantResults[i] == PERMISSION_GRANTED
    ensures code !in Handle(p, codec, PermissionsResult(code, grantResults, env)).p.permissionHandlers
    ensures env.radioEnabled ==> Handle(p, codec, PermissionsResult(code, grantResults, env)).p.isAdvertising
  {
  }

  /** Permissions come before the radio: while a permission prompt is needed
      the radio's state makes no difference to a start. */
  lemma RadioConsultedOnlyAfterPermissions(p: Peripheral, env: Env)
    requires NeedsPermissionPrompt(env)
    ensures PrepareAndStartAdvertising(p, env) == PrepareAndStartAdvertising(p, env.(radioEnabled := !env.radioEnabled))
  {
  }

  /** Below the platform level that has runtime Bluetooth permissions
      nothing is wanted, so a start never prompts, whatever is held. */
  lemma NothingWantedNeverPrompts(p: Peripheral, env: Env)
    requires env.sdkInt < VERSION_CODES_S
    ensures forall a :: a in PrepareAndStartAdvertising(p, env).actions ==> !a.RequestPermissions?
  {
  }

  /** Stopping closes the GATT server but keeps the subscription set, so a
      device subscribed before a stop is still reported subscribed after the
      next start. */
  lemma SubscriptionSurvivesRestart(p: Peripheral, codec: Gatt.Codec, env: Env, d: Gatt.Device, requestId: int)
    requires d in p.gatt.subscribed
    requires !NeedsPermissionPrompt(env) && env.radioEnabled
    ensures
      var restarted := Run(p, codec, [Toggle(false, env), Toggle(true, env)]).p;
      var read := GattTrace.DescriptorRead(d, requestId, 0, Gatt.CCC_DESCRIPTOR_UUID);
      && restarted.gatt.open && restarted.gatt.subscribed == p.gatt.subscribed
      && Handle(restarted, codec, GattEvent(read)).actions ==
           [SendResponse(Gatt.Response(d, requestId, Gatt.Success, 0, Some(Gatt.ENABLE_NOTIFICATION_VALUE)))]
  {
    var events := [Toggle(false, env), Toggle(true, env)];
    var stopped := Handle(p, codec, events[0]).p;
    assert events[1..] == [events[1]];
    assert [events[1]][1..] == [];
    assert Run(stopped, codec, events[1..]).p == Handle(stopped, codec, events[1]).p;
  }

  /** A history that starts with an event handled as `n` continues from
      `n`'s state, after `n`'s calls. */
  lemma RunStep(p: Peripheral, codec: Gatt.Codec, e: Event, rest: seq<Event>, n: Next)
    requires Handle(p, codec, e) == n
    ensures Run(p, codec, [e] + rest) == Next(Run(n.p, codec, rest).p, n.actions + Run(n.p, codec, rest).actions)
  {
    assert ([e] + rest)[0] == e;
    assert ([e] + rest)[1..] == rest;
  }

  /** The state a start that must prompt leaves behind: the AskOnce
      permission handler registered. */
  function Prompted(p: Peripheral, env: Env): Peripheral
  {
    p.(permissionHandlers := p.permissionHandlers[BLUETOOTH_ALL_PERMISSIONS_REQUEST_CODE :=
                                                    PermissionHandler(AskOnce, WantedPermissions(env.sdkInt))])
  }

  /** Switching on while a permission prompt is needed only registers the
      AskOnce handler and prompts. */
  lemma RunStartPrompts(p: Peripheral, codec: Gatt.Codec, env: Env, rest: seq<Event>)
    requires NeedsPermissionPrompt(env)
    ensures
      var after := Run(Prompted(p, env), codec, rest);
      Run(p, codec, [Toggle(true, env)] + rest) ==
        Next(after.p, [RequestPermissions(WantedPermissions(env.sdkInt), BLUETOOTH_ALL_PERMISSIONS_REQUEST_CODE)] + after.actions)
  {
    RunStep(p, codec, Toggle(true, env), rest, Handle(p, codec, Toggle(true, env)));
  }

  /** Switching off with no server open only clears the flag. */
  lemma RunStopWithoutServer(p: Peripheral, codec: Gatt.Codec, env: Env, rest: seq<Event>)
    requires !p.gatt.open
    ensures
      var after := Run(p.(isAdvertising := false), codec, rest);
      Run(p, codec, [Toggle(false, env)] + rest) == Next(after.p, [StopAdvertising] + after.actions)
  {
    RunStep(p, codec, Toggle(false, env), rest, Handle(p, codec, Toggle(false, env)));
  }

  /** A full grant for a pending AskOnce prompt, with the radio on, removes
      the handler and starts. */
  lemma RunGrantStarts(p: Peripheral, codec: Gatt.Codec, grantResults: seq<int>, env: Env, rest: seq<Event>)
    requires BLUETOOTH_ALL_PERMISSIONS_REQUEST_CODE in p.permissionHandlers
    requires p.permissionHandlers[BLUETOOTH_ALL_PERMISSIONS_REQUEST_CODE].askType == AskOnce
    requires AllGranted(grantResults) && env.radioEnabled
    ensures
      var q := p.(isAdvertising := true, gatt := p.gatt.(open := true),
                  permissionHandlers := p.permissionHandlers - {BLUETOOTH_ALL_PERMISSIONS_REQUEST_CODE});
      var after := Run(q, codec, rest);
      Run(p, codec, [PermissionsResult(BLUETOOTH_ALL_PERMISSIONS_REQUEST_CODE, grantResults, env)] + rest) ==
        Next(after.p, [OpenGattServer, StartAdvertising] + after.actions)
  {
    var e := PermissionsResult(BLUETOOTH_ALL_PERMISSIONS_REQUEST_CODE, grantResults, env);
    RunStep(p, codec, e, rest, Handle(p, codec, e));
  }

  /** A permission result for a code with no handler changes nothing. */
  lemma RunUnknownResultIgnored(p: Peripheral, codec: Gatt.Codec, code: int, grantResults: seq<int>, env: Env)
    requires code !in p.permissionHandlers
    ensures Run(p, codec, [PermissionsResult(code, grantResults, env)]) == Next(p, [])
  {
    var e := PermissionsResult(code, grantResults, env);
    RunStep(p, codec, e, [], Handle(p, codec, e));
    assert [e] + [] == [e];
  }

  /** Starting while a prompt is pending, then two full grants with the
      radio on: one more prompt, one start, and the second grant is dropped. */
  lemma PromptThenGrantTwice(p: Peripheral, codec: Gatt.Codec, env: Env, grants: seq<int>)
    requires NeedsPermissionPrompt(env) && env.radioEnabled && AllGranted(grants)
    ensures
      var granted := PermissionsResult(BLUETOOTH_ALL_PERMISSIONS_REQUEST_CODE, grants, env);
      var q := Prompted(p, env);
      var started := q.(isAdvertising := true, gatt := q.gatt.(open := true),
                        permissionHandlers := q.permissionHandlers - {BLUETOOTH_ALL_PERMISSIONS_REQUEST_CODE});
      Run(p, codec, [Toggle(true, env), granted, granted]) ==
        Next(started, [RequestPermissions(WantedPermissions(env.sdkInt), BLUETOOTH_ALL_PERMISSIONS_REQUEST_CODE),
                       OpenGattServer, StartAdvertising])
  {
    var granted := PermissionsResult(BLUETOOTH_ALL_PERMISSIONS_REQUEST_CODE, grants, env);
    var q := Prompted(p, env);
    var started := q.(isAdvertising := true, gatt := q.gatt.(open := true),
                      permissionHandlers := q.permissionHandlers - {BLUETOOTH_ALL_PERMISSIONS_REQUEST_CODE});
    RunUnknownResultIgnored(started, codec, BLUETOOTH_ALL_PERMISSIONS_REQUEST_CODE, grants, env);
    RunGrantStarts(q, codec, grants, env, [granted]);
    RunStartPrompts(p, codec, env, [granted, granted]);
    assert [Toggle(true, env)] + [granted, granted] == [Toggle(true, env), granted, granted];
  }

  /** Start, stop and start again while a permission prompt is pending,
      from any state with no server open, then two full grants. */
  lemma RestartThenGrantTwice(p: Peripheral, codec: Gatt.Codec, env: Env, grants: seq<int>)
    requires !p.gatt.open
    requires NeedsPermissionPrompt(env) && env.radioEnabled && AllGranted(grants)
    ensures
      var granted := PermissionsResult(BLUETOOTH_ALL_PERMISSIONS_REQUEST_CODE, grants, env);
      var ask := RequestPermissions(WantedPermissions(env.sdkInt), BLUETOOTH_ALL_PERMISSIONS_REQUEST_CODE);
      var n := Run(p, codec, [Toggle(true, env), Toggle(false, env), Toggle(true, env), granted, granted]);
      && n.p.isAdvertising && n.p.gatt.open
      && n.p.permissionHandlers == p.permissionHandlers - {BLUETOOTH_ALL_PERMISSIONS_REQUEST_CODE}
      && n.actions == [ask, StopAdvertising, ask, OpenGattServer, StartAdvertising]
  {
    var granted := PermissionsResult(BLUETOOTH_ALL_PERMISSIONS_REQUEST_CODE, grants, env);
    var stopped := Prompted(p, env).(isAdvertising := false);
    PromptThenGrantTwice(stopped, codec, env, grants);
    assert Prompted(stopped, env).permissionHandlers - {BLUETOOTH_ALL_PERMISSIONS_REQUEST_CODE}
           == p.permissionHandlers - {BLUETOOTH_ALL_PERMISSIONS_REQUEST_CODE};
    RunStopWithoutServer(Prompted(p, env), codec, env, [Toggle(true, env), granted, granted]);
    RunStartPrompts(p, codec, env, [Toggle(false, env), Toggle(true, env), granted, granted]);
  }

  /** Start, stop and start again while the permission prompt is pending:
      two prompts go out but the handler map keeps one handler, so the first
      answer starts the session and the second answer is dropped. */
  lemma RestartWhilePromptPendingAnswersOnce(codec: Gatt.Codec)
    ensures
      var env := Env(VERSION_CODES_S, {}, true);
      var granted := PermissionsResult(BLUETOOTH_ALL_PERMISSIONS_REQUEST_CODE, [PERMISSION_GRANTED, PERMISSION_GRANTED], env);
      var wanted := [BluetoothConnect, BluetoothAdvertise];
      var n := Run(Initial("", ""), codec, [Toggle(true, env), Toggle(false, env), Toggle(true, env), granted, granted]);
      && n.p.isAdvertising && n.p.gatt.open
      && n.p.permissionHandlers == map[]
      && n.actions == [RequestPermissions(wanted, BLUETOOTH_ALL_PERMISSIONS_REQUEST_CODE),
                       StopAdvertising,
                       RequestPermissions(wanted, BLUETOOTH_ALL_PERMISSIONS_REQUEST_CODE),
                       OpenGattServer, StartAdvertising]
  {
    var env := Env(VERSION_CODES_S, {}, true);
    assert NeedsPermissionPrompt(env) by {
      assert WantedPermissions(env.sdkInt)[0] !in env.held;
    }
    RestartThenGrantTwice(Initial("", ""), codec, env, [PERMISSION_GRANTED, PERMISSION_GRANTED]);
  }

  /** A stop does not cancel a pending start: from any state with no server
      open, a start that must prompt, a stop, then a full grant with the
      radio on still opens the GATT server and advertises, because the
      permission handler survives the stop. */
  lemma StopDoesNotCancelPendingStart(p: Peripheral, codec: Gatt.Codec, env: Env, grants: seq<int>)
    requires !p.gatt.open
    requires NeedsPermissionPrompt(env) && env.radioEnabled && AllGranted(grants)
    ensures
      var granted := PermissionsResult(BLUETOOTH_ALL_PERMISSIONS_REQUEST_CODE, grants, env);
      var n := Run(p, codec, [Toggle(true, env), Toggle(false, env), granted]);
      && n.p.isAdvertising && n.p.gatt.open
      && n.p.permissionHandlers == p.permissionHandlers - {BLUETOOTH_ALL_PERMISSIONS_REQUEST_CODE}
      && n.actions == [RequestPermissions(WantedPermissions(env.sdkInt), BLUETOOTH_ALL_PERMISSIONS_REQUEST_CODE),
                       StopAdvertising, OpenGattServer, StartAdvertising]
  {
    var granted := PermissionsResult(BLUETOOTH_ALL_PERMISSIONS_REQUEST_CODE, grants, env);
    var stopped := Prompted(p, env).(isAdvertising := false);
    var started := stopped.(isAdvertising := true, gatt := stopped.gatt.(open := true),
                            permissionHandlers := stopped.permissionHandlers - {BLUETOOTH_ALL_PERMISSIONS_REQUEST_CODE});
    assert Run(started, codec, []) == Next(started, []);
    assert started.permissionHandlers == p.permissionHandlers - {BLUETOOTH_ALL_PERMISSIONS_REQUEST_CODE};
    RunGrantStarts(stopped, codec, grants, env, []);
    assert [granted] + [] == [granted];
    RunStopWithoutServer(Prompted(p, env), codec, env, [granted]);
    RunStartPrompts(p, codec, env, [Toggle(false, env), granted]);
  }

  /** The GATT callbacks of a session history, in order. */
  function GattEvents(events: seq<Event>): seq<GattTrace.Event>
    decreases |events|
  {
    if events == [] then []
    else (if events[0].GattEvent? then [events[0].event] else []) + GattEvents(events[1..])
  }

  /** Two server states that agree on everything a callback reads or
      writes; they may differ in whether a server object is open. */
  predicate SameContents(a: Gatt.Server, b: Gatt.Server)
  {
    a.subscribed == b.subscribed && a.written == b.written && a.readValue == b.readValue
  }

  /** Whether the server is open only decides whether responses go out,
      never what a callback does to the stored state. */
  lemma StepIgnoresOpen(a: Gatt.Server, b: Gatt.Server, codec: Gatt.Codec, e: GattTrace.Event)
    requires SameContents(a, b)
    ensures SameContents(GattTrace.Step(a, codec, e).server, GattTrace.Step(b, codec, e).server)
  {
  }

  /** Starts, stops, results and advertise callbacks never touch the GATT
      contents: after any session history they are what replaying its GATT
      callbacks alone gives, from any state with the same contents. */
  lemma {:induction false} RunContentsFollowReplay(p: Peripheral, s: Gatt.Server, codec: Gatt.Codec, events: seq<Event>)
    requires SameContents(p.gatt, s)
    ensures SameContents(Run(p, codec, events).p.gatt, GattTrace.Replay(s, codec, GattEvents(events)).server)
    decreases |events|
  {
    if events != [] {
      var first := Handle(p, codec, events[0]);
      if events[0].GattEvent? {
        var ge := events[0].event;
        StepIgnoresOpen(p.gatt, s, codec, ge);
        assert GattEvents(events) == [ge] + GattEvents(events[1..]);
        assert ([ge] + GattEvents(events[1..]))[1..] == GattEvents(events[1..]);
        RunContentsFollowReplay(first.p, GattTrace.Step(s, codec, ge).server, codec, events[1..]);
      } else {
        assert GattEvents(events) == GattEvents(events[1..]);
        RunContentsFollowReplay(first.p, s, codec, events[1..]);
      }
    }
  }

  /** Across stops and starts, a device's subscription is still decided by
      the last GATT event about it. */
  lemma SessionSubscriptionFollowsLastDecision(p: Peripheral, codec: Gatt.Codec, events: seq<Event>, d: Gatt.Device)
    ensures d in Run(p, codec, events).p.gatt.subscribed <==>
              GetOr(GattTrace.LastDecision(d, GattEvents(events)), d in p.gatt.subscribed)
  {
    RunContentsFollowReplay(p, p.gatt, codec, events);
    GattTrace.SubscriptionFollowsLastDecision(p.gatt, codec, GattEvents(events), d);
  }

  /** Across stops and starts, the stored value is still the last one
      written. */
  lemma SessionWrittenIsLastWrite(p: Peripheral, codec: Gatt.Codec, events: seq<Event>)
    ensures Run(p, codec, events).p.gatt.written == GetOr(GattTrace.LastWrite(codec, GattEvents(events)), p.gatt.written)
  {
    RunContentsFollowReplay(p, p.gatt, codec, events);
    GattTrace.WrittenIsLastWrite(p.gatt, codec, GattEvents(events));
  }
}
